=== FILE: README.md ===
# TaskFlow task manager: a Dafny model of its state rules

TaskFlow is a small task manager. A Django REST API stores tasks per user. A single-page React
client signs users in, lists their tasks, and creates, completes, edits and deletes them. This
project models the two places where its logic lives, as pure functions over immutable data, and
proves what they promise.

**The client dashboard** (module `App`, built from `Session`, `TaskList`, `Notices` and `Outcomes`).
One record holds the client state:

- the signed-in `user` and the two `localStorage` entries `user` and `authToken`;
- the current page;
- the message the Login page shows as it mounts;
- the Dashboard component's own state, held as `dash: Option<Dash>`.

`Dash` holds the task list, the create form, the edit draft (`editing`, `editTitle`,
`editDescription`), the notification message with its success flag, and the timeout bookkeeping
of the 3-second auto-clear effect. React keeps a component's state only while the component is
rendered. So `dash` is `Some` exactly while the dashboard page is selected and a user is signed
in (App.jsx line 80). A page change that unmounts the dashboard discards its state. A dashboard
that mounts again starts from its `useState` defaults (`App.Fresh`).

Each handler becomes one step from the state before the request to the state after it. The
response is an abstract `Outcome`: `Ok(payload)`, `HttpErr(status, data)`, `NoResponse`, or
`Other` (an error raised before anything was sent). The completion toggle is split in two steps,
`ToggleStart` (the optimistic flip) and `ToggleFinish` (reconcile or revert). That split lets the
model state what happens when another handler runs while the toggle request is out. The timer is
modelled with explicit handles:

- `handle` is the ref the effect keeps;
- `live` is the set of timeouts the browser will still run;
- `next` is the id the next `setTimeout` returns.

`Notices.Valid` proves that at most one timeout is ever pending.

**The server's access rules** (modules `Roles`, `TaskApi`, `TaskAdmin`).

- Accounts carry a role in {user, admin} and a superuser flag.
- `User.save` normalises a superuser to the admin role.
- The user admin shows a role column and forces the admin role in `save_model`.
- The task endpoints work on a `map<int, Task>` store. The list is filtered by owner. The detail
  view runs its 404 and 403 guards before GET, PUT, PATCH and DELETE.
- The task admin filters its queryset. Its admin test (superuser or admin role) is shown to agree
  with the views' test (admin role) once `save` has run. `ChecksDifferBeforeSave` shows that the
  two tests disagree on an account that has not been saved.

The serializer's `is_valid` depends on tasks/models.py, which is not part of this model, so its
verdict is a boolean input. `created_by`, `created_at` and `updated_at` are read-only, so an
update request (`Changes`) cannot carry an owner at all. PUT and PATCH apply the supplied fields
in the same way. They differ only in which fields the serializer requires, and that is part of
the abstract validation.

## Behaviour of the code worth knowing

- Delete is not optimistic. The task leaves the list only after the server confirms
  (App.jsx line 458). A failed delete therefore leaves the list, and every index in it, unchanged.
- `handleSubmit` validates nothing itself. The title and description inputs are `required`
  (App.jsx lines 642 and 651), so the browser will not submit an empty field. Text made only of
  spaces still gets through to the server. The browser's check happens before the handler runs,
  so it is outside this model.
- A failed toggle restores `currentStatus`, the value captured when the button was rendered and
  clicked. It does not restore the value current when the request was sent.
- A 401 clears both storage keys, nulls the user and switches to the login page. The dashboard
  unmounts in the same update, so its cleanup cancels the pending timeout. Its list, draft and
  message are discarded. The "Session expired" text is written to that discarded state, and the
  login page mounts with an empty message. After a 401 no message is shown (see Findings).
- React re-runs the message effect only when the text changes. Setting the same message again
  (two identical "Task deleted successfully!" within 3 seconds) keeps the first timeout, so the
  expiry is measured from the first message (`Notices.SetMessage`: `m == n.message ==> r == n`).
  Create always clears the message first, so its timeout always restarts.
- Session restore tests the stored strings for truthiness. A key holding the empty string counts
  as absent.

## Model

| member | source | states |
|---|---|---|
| Roles.FromValue | users/models.py:5-9 | a stored role value denotes a role exactly when it is one of the declared choices, and names that role back |
| Roles.ChoicesCoverRoles | users/models.py:5-9 | every role is a declared choice with its declared display name, and its stored value reads back as that role |
| Roles.NewAccount | users/models.py:9 | an account created without a role has the stored role 'user' |
| Roles.Save | users/models.py:14-18 | after save a superuser has role admin; a non-superuser's role is unchanged; an account that is already normalised is left as it is |
| Roles.SaveIdempotent | users/models.py:14-18 | saving twice gives the same account as saving once |
| Roles.RoleColumn | users/admin.py:26-31 | the column reads 'Admin' exactly for a superuser or an admin; otherwise it is the display name of the stored role; it is always 'User' or 'Admin' |
| Roles.RoleColumnMatchesSavedRole | users/admin.py:26-31 | the column shows the display name of the role the account has once saved |
| Roles.SaveModel | users/admin.py:33-37 | a superuser ends with role admin; a non-superuser is left untouched; the result is what `save` stores |
| TaskApi.ListTasks | tasks/views.py:20-27 | an admin gets every task; anyone else gets exactly the tasks they own, with their stored contents; status 200 |
| TaskApi.CreateTask | tasks/views.py:29-34 | a valid request stores one task under a key not used before, owned by the requester, answers 201 with it and keeps every other task; an invalid one answers 400 and changes nothing |
| TaskApi.Apply | tasks/views.py:65-71 | an update overwrites exactly the supplied fields and never the owner |
| TaskApi.ApplyIdempotent | tasks/views.py:58-71 | applying the same update twice gives the same task as applying it once |
| TaskApi.ApplyNothing | tasks/views.py:65-71 | a partial update that supplies no field leaves the task unchanged |
| TaskApi.TaskDetail | tasks/views.py:45-77 | a missing key answers 404 and a foreign task answers 403 to a non-admin, both with the store unchanged, whatever the method; a 403 happens exactly then; a permitted GET answers 200 with the stored task and changes nothing; a valid PUT or PATCH changes only the addressed task, keeps its owner and answers with that task under its own key, an invalid one answers 400 with no change; DELETE removes exactly the addressed task with 204 |
| TaskApi.UpdateIdempotent | tasks/views.py:45-71 | repeating a PUT or PATCH with the same data and serializer verdict gives the same response and store as sending it once, whatever the requester and key |
| TaskApi.ListAgreesWithDetail | tasks/views.py:20-56 | a task is in the requester's list exactly when fetching it alone succeeds |
| TaskAdmin.Queryset | tasks/admin.py:12-17 | a superuser or admin gets the queryset unchanged; anyone else gets exactly their own rows, each as often as in the queryset; the result is always a subsequence of the queryset |
| TaskAdmin.ChecksDifferBeforeSave | tasks/admin.py:15 | a superuser stored with role 'user' passes the admin's test but not the views' test |
| TaskAdmin.ChecksAgreeAfterSave | tasks/admin.py:15 | after `save`, the admin's test and the views' test agree, and saving does not change the admin's verdict |
| TaskAdmin.QuerysetMatchesList | tasks/admin.py:12-17 | for a saved account, the admin shows exactly the rows the list endpoint returns |
| Session.Restore | frontend/src/App.jsx:17-31 | the user is signed in exactly when both keys hold non-empty strings and the stored profile parses to a truthy value; a profile whose parse throws removes both keys; one that parses to a falsy value (such as `null`) leaves storage untouched and nobody signed in; with a key missing, storage is untouched; a signed-in user always has both keys |
| Session.Clear | frontend/src/App.jsx:62-67 | both keys are removed together, every other entry is kept, and the user is null |
| Session.ClearIdempotent | frontend/src/App.jsx:62-67 | signing out twice is the same as signing out once |
| Session.Establish | frontend/src/App.jsx:257-260 | a login stores the serialised profile and the token and signs the user in, with both keys present; every other stored entry keeps its value |
| Session.RestoreAfterEstablish | frontend/src/App.jsx:17-31 | reloading after a login restores the same profile and storage, provided the profile serialises to non-empty text that parses back to it and the token is non-empty |
| Session.RestoreAfterClear | frontend/src/App.jsx:17-31 | reloading after a logout stays signed out with the same storage |
| Notices.SetMessage | frontend/src/App.jsx:353-370 | a changed message cancels every earlier timeout and, when non-empty, starts exactly one fresh one; an empty message leaves none pending; an unchanged message changes nothing; the invariant is kept |
| Notices.AtMostOnePending | frontend/src/App.jsx:353-362 | under the invariant at most one timeout is pending |
| Notices.Fire | frontend/src/App.jsx:358-361 | a pending timeout empties the message and the ref and leaves nothing pending; a cancelled one does nothing |
| Notices.SupersededTimeoutIsHarmless | frontend/src/App.jsx:355-361 | a timeout superseded by a newer message cannot clear that message |
| Notices.Unmount | frontend/src/App.jsx:364-369 | the effect's cleanup cancels the ref's timeout, after which none is pending; the message and the ref are left as they are |
| TaskList.RemoveId | frontend/src/App.jsx:458 | the result holds exactly the tasks with another id, each as often as before, in their original order |
| TaskList.RemoveAbsentId | frontend/src/App.jsx:458 | removing an id that no task has changes nothing |
| TaskList.RemoveAppended | frontend/src/App.jsx:417-458 | appending a task with a new id and then removing that id gives back the list |
| TaskList.SetCompleted | frontend/src/App.jsx:482-486 | length, order, ids and every other field are kept; completion changes only on tasks with the given id |
| TaskList.SetCompletedRevert | frontend/src/App.jsx:514-520 | setting back the status the matching tasks had undoes a status change exactly |
| TaskList.SetCompletedLastWins | frontend/src/App.jsx:506-510 | of two status changes on one id, the later one wins |
| TaskList.SetText | frontend/src/App.jsx:582-584 | only the title and description of tasks with the given id change, to the given text; every other task is unchanged |
| Outcomes.BodyText | frontend/src/App.jsx:434 | the server's joined error text when it is non-empty, and exactly the fallback when it is empty; never empty |
| Outcomes.CreateFailureMessage | frontend/src/App.jsx:422-442 | a body with text shows that text, an empty body the create fallback, no body the server-error text, no response the network text, anything else the unexpected-error text |
| Outcomes.ToggleFailureMessage | frontend/src/App.jsx:526-546 | 401, 403 and 404 get their fixed texts, another status gets the body text or a fallback, no response the network text, anything else the generic text; never empty |
| App.Load | frontend/src/App.jsx:10-31 | the app starts on the home page with no dashboard mounted, its session being exactly what restore makes of the storage, signed in exactly when restore succeeds, with the invariant holding |
| App.Navigate | frontend/src/App.jsx:53-80 | the page becomes the chosen one; the dashboard's state exists exactly when the dashboard is rendered, survives while it stays rendered and is fresh when it mounts anew; a page change resets the login message; choosing the current page changes nothing; the invariant is kept |
| App.ReturningRemounts | frontend/src/App.jsx:330-338 | leaving the dashboard and coming back gives the dashboard's initial state, the list and message included |
| App.Logout | frontend/src/App.jsx:613-618 | either logout button (here and at lines 62-67): the session is cleared exactly as `Session.Clear` does, the page is home, the dashboard's state is gone, no message is shown, and the invariant holds |
| App.SignIn | frontend/src/App.jsx:257-263 | a login stores the profile and token exactly as `Session.Establish` does, keeps the page and the login message, mounts no dashboard off the dashboard page, and keeps the invariant |
| App.SignInThenOpen | frontend/src/App.jsx:257-263 | signing in on the login page and then following the redirect shows a dashboard in its initial state |
| App.UnmountCancelsTimeout | frontend/src/App.jsx:364-369 | when a valid dashboard unmounts, its effect's cleanup leaves no timeout pending |
| App.Expire | frontend/src/App.jsx:386-393 | a 401 clears the session and goes to the login page; the dashboard's state, including the expiry text written to it, is gone, and the login page shows no message |
| App.LateExpiryEndsNewSession | frontend/src/App.jsx:594-600 | a 401 arriving after the dashboard unmounted still applies: from the home page it moves to the login page, and after a logout and a new login it removes the new session's keys and user |
| App.ExpiryTextIsLost | frontend/src/App.jsx:386-393 | after a 401 the login page, whose message starts empty (line 237), is shown with no dashboard and without the expiry text |
| App.ExpireWithNotice | frontend/src/App.jsx:386-393 | the intended 401 branch: the session ends exactly as in `Expire`, and the login page shows the expiry text |
| App.Fetch | frontend/src/App.jsx:372-401 | success replaces the list with the server's and changes nothing else; a 401 expires the session; another failure reports the fetch error and keeps the list, the form, the draft, the session and the page |
| App.Create | frontend/src/App.jsx:403-446 | success appends exactly the returned task to the unchanged list, clears the form and reports success; any other failure keeps the list and the form and reports the classified message; the draft, the session and the page are kept unless a 401 expires the session; a non-expiring outcome always leaves a message with a timeout pending |
| App.Delete | frontend/src/App.jsx:448-477 | success removes exactly the tasks with the id and reports success; another failure keeps the list and reports the delete error; the form, the draft, the session and the page are kept unless a 401 expires the session; a non-expiring outcome leaves a timeout pending |
| App.ToggleStart | frontend/src/App.jsx:479-486 | only tasks with the id change, to the negation of the clicked status; nothing else in the state changes |
| App.ToggleFinish | frontend/src/App.jsx:506-549 | unless a 401 expires the session: the list keeps its length, order and other fields, tasks with the id get the server's status on success and the clicked status on failure, and the form, the draft, the session and the page are kept; messages follow the classification |
| App.Toggle | frontend/src/App.jsx:479-549 | the whole toggle, with nothing in between: on success the tasks with the id carry the server's status, on a failure other than a 401 they carry the clicked status `current`; every other task, the form, the draft, the session and the page are kept; a 401 expires the session; the invariant is kept |
| App.ToggleFailureRestores | frontend/src/App.jsx:514-520 | a failed toggle that does not expire the session, of a task shown with status `current`, leaves the list exactly as before the click |
| App.ToggleSuccessTakesServerStatus | frontend/src/App.jsx:505-510 | after a successful toggle the tasks with the id carry the server's status |
| App.ToggleDoesNotResurrect | frontend/src/App.jsx:506-520 | a task deleted while its toggle request is out stays deleted |
| App.StartEditing | frontend/src/App.jsx:553-557 | the draft holds the task's id, title and description; the list, the create form, the message, its style, the session and the page are untouched |
| App.CancelEditing | frontend/src/App.jsx:560-564 | the draft is reset to (null, '', ''); the list, the create form, the message, its style, the session and the page are untouched |
| App.CancelUndoesStart | frontend/src/App.jsx:553-564 | starting and then cancelling an edit is the same as only cancelling |
| App.SaveEdit | frontend/src/App.jsx:567-607 | success replaces only the title and description of the matching tasks by the server's and closes the draft; another failure keeps the draft and the list; the form, the session and the page are kept unless a 401 expires the session |
| App.TimeoutFires | frontend/src/App.jsx:358-361 | a pending timeout clears the message and the ref and changes nothing else; a cancelled one, or one whose dashboard is gone, changes nothing |
| App.CreateThenDelete | frontend/src/App.jsx:417-458 | creating a task with a new id and deleting it again gives back the original list |
| App.ToggleScenario | frontend/src/App.jsx:372-549 | a stored session opens a fresh dashboard; loading two tasks and marking the first done completes only the first, and the success message later clears with no timeout left |

## Left out

- I/O of every kind: the network calls, the axios configuration and headers, and the token read
  before each request. Each request becomes its `Outcome` input.
- `JSON.parse` and `JSON.stringify` are the function parameters `parse` and `encode`. `parse`
  says only whether parsing throws, gives a falsy value, or gives a truthy one. A truthy JSON value
  other than an object (a number, a string, an array) is taken as a profile, as the client does.
  Its fields are not inspected.
- The joining of error values with `Object.values(...).join(', ')` is not modelled. `ErrorData`
  carries the joined text.
- Rendering, animations (frontend/src/animations.js), date formatting and the `loading` busy
  flag. The flag disables only the submit, save and cancel buttons. The delete and toggle buttons
  (App.jsx lines 718-735) stay enabled while a request is out.
- The dashboard's mount effect calls `fetchTasks` (App.jsx lines 342-344). `App.Navigate` mounts
  a fresh dashboard, and the fetch is the separate step `App.Fetch`.
- The Register and Login components' own messages, their failure branches and their 1500 ms
  redirects. Only their success step is modelled, as `App.SignIn` over `Session.Establish`.
- Interleaving of concurrent handlers beyond the toggle's two halves. Create
  (`[...tasks, response.data]`, App.jsx line 417), delete and saveEdit build the new list from
  the `tasks` value captured when the handler started. A concurrent update could therefore be
  overwritten. Each handler requires a mounted dashboard.
- A continuation that lands after the dashboard unmounted is only partly modelled. React drops
  its component-local updates (`setTasks`, `setMessage`, the draft), so the model leaves those
  out. Its 401 branch also writes App state and storage: both keys removed, the user nulled, the
  login page selected. Those writes still take effect. That is `App.Expire`, which needs no
  mounted dashboard. `App.LateExpiryEndsNewSession` shows the consequence: a late 401 can
  end a session started after a logout. The `setLoading(false)` of each `finally` also still
  runs, but the busy flag is outside the model.
- Wall-clock time: a timeout is a handle that is pending or cancelled. The 3000 ms duration is not
  represented.
- users/views.py (register and login) relies on Django's `authenticate` and on DRF's token
  store, and is not part of this model.
- tasks/models.py is not part of this model. So the serializer's validation is a boolean input,
  model defaults for a created task are part of the `Fields` input, and the `created_at` /
  `updated_at` timestamps and list ordering are not modelled.
- The Django ORM, the authentication decorators, debug prints and logging. The requester is
  assumed authenticated.
- Roles.Role: the stored role is one of the two declared choices. Django does not enforce
  `choices` when `save` is called directly, so a role string outside them is not representable.
- TaskApi.CreateTask: primary keys come from a counter. The database's autoincrement is only
  required to hand out a fresh key.

## Findings

| source | as written | input that shows it | evidently intended | confidence | as-written member | corrected member |
|---|---|---|---|---|---|---|
| frontend/src/App.jsx:386-393 (and the same branch at 426-432, 464-470, 528-534, 594-600) | the 401 branch writes "Session expired. Please log in again." to the Dashboard's own message, then nulls the user and selects the login page in the same update; the Dashboard unmounts and the Login page mounts with message '' (line 237) | any request answered with status 401 while the dashboard is shown, e.g. `fetchTasks` with a revoked token | the user sees the expiry text on the login page | medium, not executed | App.ExpiryTextIsLost | App.ExpireWithNotice |

The handlers keep the 401 branch as written (`App.Expire`), because this model describes the code.
`App.ExpireWithNotice` is the branch a fix would put in their place. It ends the session in
exactly the same way and also carries the text to the login page.

=== FILE: app.dfy ===
/**
  The single-page client (frontend/src/App.jsx): the App component's page and
  session, the Dashboard component's own state while it is mounted, and the
  message the Login page mounts with. Each handler is a pure step from the
  state before the request to the state after its response; the response is
  an abstract `Outcome`.
 */
module App {
  import opened Options
  import opened Outcomes
  import opened TaskList
  import Session
  import Notices

  datatype Page = HomePage | RegisterPage | LoginPage | DashboardPage

  /** The Dashboard component's local state: list, create form, edit draft, notification. */
  datatype Dash = Dash(
    tasks: seq<Task>,
    title: string,            // create form
    description: string,
    editing: Option<int>,     // edit draft
    editTitle: string,
    editDescription: string,
    notice: Notices.Notice,
    success: bool)            // whether the message is styled as a success

  /**
    `dash` is the dashboard's state while it is mounted and `None` otherwise:
    React discards a component's state when it unmounts. `loginMessage` is the
    Login page's message as it mounts; the Login page's own handlers are not
    part of this model.
   */
  datatype State = State(
    session: Session.Session,
    page: Page,
    dash: Option<Dash>,
    loginMessage: string)

  /** The dashboard as it mounts: every `useState` at its initial value. */
  const Fresh := Dash([], "", "", None, "", "", Notices.Idle, false)

  /** The dashboard is rendered: its page is selected and a user is signed in. */
  predicate Mounted(s: State)
  {
    s.page == DashboardPage && s.session.user.Some?
  }

  /** A dashboard's message is always on its way to being cleared. */
  ghost predicate DashValid(d: Dash)
  {
    && Notices.Valid(d.notice)
    && (d.notice.message != "" ==> d.notice.live != {})
  }

  /**
    The state invariants: the dashboard's state exists exactly while it is
    rendered, its timer slot is sound, and only a shown Login page has a message.
   */
  ghost predicate Valid(s: State)
  {
    && Session.Consistent(s.session)
    && (s.dash.Some? <==> Mounted(s))
    && (s.dash.Some? ==> DashValid(s.dash.value))
    && (s.page != LoginPage ==> s.loginMessage == "")
  }

  /**
    A render: the dashboard keeps its state while it stays mounted, loses it
    when it unmounts, and starts from its defaults when it mounts anew.
   */
  function Render(s: State): State
  {
    s.(dash := if !Mounted(s) then None else if s.dash.Some? then s.dash else Some(Fresh))
  }

  /** The app on load: the home page, with the session restored from storage. */
  function Load(st: Session.Storage, parse: string -> Session.Parsed): (r: State)
    ensures Valid(r) && r.page == HomePage && r.dash.None?
    ensures r.session == Session.Restore(st, parse)
    ensures r.session.user.Some? <==>
      Session.Present(st, Session.UserKey) && Session.Present(st, Session.TokenKey) && parse(st[Session.UserKey]).Truthy?
  {
    State(Session.Restore(st, parse), HomePage, None, "")
  }

  /**
    `setCurrentPage(p)` from a navigation button or a redirect. Selecting the
    current page again changes nothing; a page that is left unmounts, and a
    dashboard that mounts starts afresh (its mount effect then fetches the list).
   */
  function Navigate(s: State, p: Page): (r: State)
    ensures r.session == s.session && r.page == p
    ensures r.dash.Some? <==> Mounted(r)
    ensures Mounted(r) && s.dash.Some? ==> r.dash == s.dash
    ensures Mounted(r) && s.dash.None? ==> r.dash == Some(Fresh)
    ensures p != s.page ==> r.loginMessage == ""
    ensures Valid(s) && p == s.page ==> r == s
    ensures Valid(s) ==> Valid(r)
  {
    Render(s.(page := p, loginMessage := if p == s.page then s.loginMessage else ""))
  }

  /** Leaving the dashboard and coming back discards its list, draft and message. */
  lemma ReturningRemounts(s: State, p: Page)
    requires Valid(s) && Mounted(s) && p != DashboardPage
    ensures Navigate(Navigate(s, p), DashboardPage).dash == Some(Fresh)
  {
  }

  /** The logout buttons: clear the session and go home; the dashboard, if shown, unmounts. */
  function Logout(s: State): (r: State)
    ensures r.session == Session.Clear(s.session) && r.page == HomePage
    ensures r.dash.None? && r.loginMessage == ""
    ensures Valid(r)
  {
    State(Session.Clear(s.session), HomePage, None, "")
  }

  /**
    A successful login or registration, as far as the App sees it: the profile
    and token are stored and the user is set. The page is unchanged; the
    1500 ms redirect that follows is a later `Navigate` to the dashboard.
   */
  function SignIn(s: State, p: Session.Profile, token: string, encode: Session.Profile -> string): (r: State)
    ensures r.session == Session.Establish(s.session, p, token, encode)
    ensures r.page == s.page && r.loginMessage == s.loginMessage
    ensures r.page != DashboardPage ==> r.dash.None?
    ensures Valid(s) ==> Valid(r)
  {
    Render(s.(session := Session.Establish(s.session, p, token, encode)))
  }

  /** After signing in on the login page, the redirect opens a fresh dashboard. */
  lemma SignInThenOpen(s: State, p: Session.Profile, token: string, encode: Session.Profile -> string)
    requires Valid(s) && s.page == LoginPage
    ensures Mounted(Navigate(SignIn(s, p, token, encode), DashboardPage))
    ensures Navigate(SignIn(s, p, token, encode), DashboardPage).dash == Some(Fresh)
  {
  }

  /**
    The message effect's cleanup, which runs as the dashboard unmounts on a
    logout, a 401 or a page change, leaves no timeout pending: the slot that
    is discarded with the dashboard's state can no longer fire.
   */
  lemma UnmountCancelsTimeout(s: State)
    requires Valid(s) && s.dash.Some?
    ensures Notices.Unmount(s.dash.value.notice).live == {}
  {
  }

  /**
    The 401 branch every request handler repeats. The expiry text and the
    failure style are written to the dashboard's state, but the same update
    clears the session and switches to the login page, so the dashboard
    unmounts and that state is discarded; the login page mounts with an empty
    message. It needs no mounted dashboard: a late response does the same.
   */
  function Expire(s: State): (r: State)
    ensures Expired(s, r)
    ensures Valid(r)
  {
    State(Session.Clear(s.session), LoginPage, None, "")
  }

  /**
    The session ended because the server rejected the credential: both keys
    and the user are gone, the login page is shown, and no message at all.
   */
  ghost predicate Expired(s: State, r: State)
  {
    && r.session.user.None?
    && Session.UserKey !in r.session.storage && Session.TokenKey !in r.session.storage
    && r.session == Session.Clear(s.session)
    && r.page == LoginPage
    && r.dash.None? && r.loginMessage == ""
  }

  /**
    A 401 that arrives after the dashboard unmounted still takes effect, since
    its writes to storage, the user and the page belong to the App: from the
    home page it jumps to the login page, and after a logout and a new login it
    ends the new session.
   */
  lemma LateExpiryEndsNewSession(s: State, p: Session.Profile, token: string, encode: Session.Profile -> string)
    ensures s.page == HomePage ==> Expire(s).page == LoginPage
    ensures var r := Expire(SignIn(Logout(s), p, token, encode));
            && r.session.user.None?
            && Session.UserKey !in r.session.storage && Session.TokenKey !in r.session.storage
  {
  }

  /**
    As written, no page shows the expiry text after a 401: the dashboard that
    held it is gone and the login page's message is empty.
   */
  lemma ExpiryTextIsLost(s: State, o: Outcome<seq<Task>>)
    requires s.dash.Some? && Unauthorized(o)
    ensures Fetch(s, o).page == LoginPage && Fetch(s, o).dash.None?
    ensures Fetch(s, o).loginMessage != SessionExpired
  {
  }

  /**
    The 401 branch as evidently intended: the session ends as in `Expire`, and
    the login page shows the expiry text.
   */
  function ExpireWithNotice(s: State): (r: State)
    ensures r == Expire(s).(loginMessage := SessionExpired)
    ensures r.page == LoginPage && r.loginMessage == SessionExpired
    ensures Valid(r)
  {
    State(Session.Clear(s.session), LoginPage, None, SessionExpired)
  }

  /** Session, page and login message are as they were, and the dashboard is still there. */
  ghost predicate Kept(s: State, r: State)
  {
    r.session == s.session && r.page == s.page && r.loginMessage == s.loginMessage && r.dash.Some?
  }

  /** The create form is as it was. */
  ghost predicate SameForm(a: Dash, b: Dash)
  {
    a.title == b.title && a.description == b.description
  }

  /** The edit draft is as it was. */
  ghost predicate SameDraft(a: Dash, b: Dash)
  {
    a.editing == b.editing && a.editTitle == b.editTitle && a.editDescription == b.editDescription
  }

  /** The notification shows `text`, styled as a success exactly when `ok`. */
  ghost predicate Reported(d: Dash, text: string, ok: bool)
  {
    d.notice.message == text && d.success == ok
  }

  /** `setMessage(text)` together with `setIsSuccess(ok)`. */
  function Show(d: Dash, text: string, ok: bool): Dash
  {
    d.(success := ok, notice := Notices.SetMessage(d.notice, text))
  }

  /** `fetchTasks`: replace the list with the server's, or report the failure. */
  function Fetch(s: State, o: Outcome<seq<Task>>): (r: State)
    requires s.dash.Some?
    ensures o.Ok? ==> r == s.(dash := Some(s.dash.value.(tasks := o.payload)))
    ensures Unauthorized(o) ==> Expired(s, r)
    ensures !o.Ok? && !Unauthorized(o) ==> Kept(s, r) && Reported(r.dash.value, FetchFailed, false)
    ensures !o.Ok? && !Unauthorized(o) ==>
      Kept(s, r) && r.dash.value.tasks == s.dash.value.tasks
      && SameForm(s.dash.value, r.dash.value) && SameDraft(s.dash.value, r.dash.value)
    ensures Valid(s) ==> Valid(r)
  {
    var d := s.dash.value;
    match o
    case Ok(list) => s.(dash := Some(d.(tasks := list)))
    case _ => if Unauthorized(o) then Expire(s) else s.(dash := Some(Show(d, FetchFailed, false)))
  }

  /**
    `handleSubmit`: clear the message, post the form (the handler validates
    nothing), and append the created task the server returns.
   */
  function Create(s: State, o: Outcome<Task>): (r: State)
    requires s.dash.Some?
    ensures o.Ok? ==> Kept(s, r) && r.dash.value.tasks == s.dash.value.tasks + [o.payload]
    ensures o.Ok? ==> Kept(s, r) && r.dash.value.title == "" && r.dash.value.description == ""
    ensures o.Ok? ==> Kept(s, r) && Reported(r.dash.value, TaskCreated, true)
    ensures !Unauthorized(o) ==> Kept(s, r) && SameDraft(s.dash.value, r.dash.value)
    ensures !o.Ok? && !Unauthorized(o) ==>
      Kept(s, r) && r.dash.value.tasks == s.dash.value.tasks && SameForm(s.dash.value, r.dash.value)
    ensures !o.Ok? && !Unauthorized(o) ==> Kept(s, r) && Reported(r.dash.value, CreateFailureMessage(o), false)
    ensures Unauthorized(o) ==> Expired(s, r)
    ensures Valid(s) && !Unauthorized(o) ==> Kept(s, r) && r.dash.value.notice.live != {}
    ensures Valid(s) ==> Valid(r)
  {
    var d := s.dash.value.(notice := Notices.SetMessage(s.dash.value.notice, ""));
    match o
    case Ok(task) =>
      s.(dash := Some(Show(d.(tasks := d.tasks + [task], title := "", description := ""), TaskCreated, true)))
    case _ =>
      if Unauthorized(o) then Expire(s)
      else s.(dash := Some(Show(d, CreateFailureMessage(o), false)))
  }

  /** `handleDelete`: drop the task only once the server confirms the deletion. */
  function Delete(s: State, id: int, o: Outcome<()>): (r: State)
    requires s.dash.Some?
    ensures o.Ok? ==> Kept(s, r) && r.dash.value.tasks == RemoveId(s.dash.value.tasks, id)
    ensures o.Ok? ==> Kept(s, r) && Reported(r.dash.value, TaskDeleted, true)
    ensures !Unauthorized(o) ==>
      Kept(s, r) && SameForm(s.dash.value, r.dash.value) && SameDraft(s.dash.value, r.dash.value)
    ensures !o.Ok? && !Unauthorized(o) ==> Kept(s, r) && r.dash.value.tasks == s.dash.value.tasks
    ensures !o.Ok? && !Unauthorized(o) ==> Kept(s, r) && Reported(r.dash.value, DeleteFailed, false)
    ensures Unauthorized(o) ==> Expired(s, r)
    ensures Valid(s) && !Unauthorized(o) ==> Kept(s, r) && r.dash.value.notice.live != {}
    ensures Valid(s) ==> Valid(r)
  {
    var d := s.dash.value;
    match o
    case Ok(_) => s.(dash := Some(Show(d.(tasks := RemoveId(d.tasks, id)), TaskDeleted, true)))
    case _ => if Unauthorized(o) then Expire(s) else s.(dash := Some(Show(d, DeleteFailed, false)))
  }

  /** First half of `handleToggleComplete`: show the flipped status at once. */
  function ToggleStart(s: State, id: int, current: bool): (r: State)
    requires s.dash.Some?
    ensures r.dash.Some? && |r.dash.value.tasks| == |s.dash.value.tasks|
    ensures forall i :: 0 <= i < |s.dash.value.tasks| ==>
              SameButCompletion(r.dash.value.tasks[i], s.dash.value.tasks[i])
    ensures forall i :: 0 <= i < |s.dash.value.tasks| ==>
              r.dash.value.tasks[i].isCompleted ==
                (if s.dash.value.tasks[i].id == id then !current else s.dash.value.tasks[i].isCompleted)
    ensures r == s.(dash := Some(s.dash.value.(tasks := r.dash.value.tasks)))
    ensures Valid(s) ==> Valid(r)
  {
    var d := s.dash.value;
    s.(dash := Some(d.(tasks := SetCompleted(d.tasks, id, !current))))
  }

  /**
    Second half of `handleToggleComplete`: on success take the server's status,
    on failure restore `current`, the status captured when the button was
    clicked. Either way only the tasks then in the list are touched.
   */
  function ToggleFinish(s: State, id: int, current: bool, o: Outcome<Task>): (r: State)
    requires s.dash.Some?
    ensures !Unauthorized(o) ==> Kept(s, r) && |r.dash.value.tasks| == |s.dash.value.tasks|
    ensures !Unauthorized(o) ==> Kept(s, r) && forall i :: 0 <= i < |s.dash.value.tasks| ==>
              SameButCompletion(r.dash.value.tasks[i], s.dash.value.tasks[i])
    ensures !Unauthorized(o) ==> Kept(s, r) && forall i :: 0 <= i < |s.dash.value.tasks| && s.dash.value.tasks[i].id != id ==>
              r.dash.value.tasks[i] == s.dash.value.tasks[i]
    ensures !Unauthorized(o) ==> Kept(s, r) && forall i :: 0 <= i < |s.dash.value.tasks| && s.dash.value.tasks[i].id == id ==>
              r.dash.value.tasks[i].isCompleted == (if o.Ok? then o.payload.isCompleted else current)
    ensures !Unauthorized(o) ==>
      Kept(s, r) && SameForm(s.dash.value, r.dash.value) && SameDraft(s.dash.value, r.dash.value)
    ensures o.Ok? ==>
      Kept(s, r) && Reported(r.dash.value, if o.payload.isCompleted then MarkedCompleted else MarkedIncomplete, true)
    ensures !o.Ok? && !Unauthorized(o) ==> Kept(s, r) && Reported(r.dash.value, ToggleFailureMessage(o), false)
    ensures Unauthorized(o) ==> Expired(s, r)
    ensures Valid(s) && !Unauthorized(o) ==> Kept(s, r) && r.dash.value.notice.live != {}
    ensures Valid(s) ==> Valid(r)
  {
    var d := s.dash.value;
    match o
    case Ok(task) =>
      var reconciled := d.(tasks := SetCompleted(d.tasks, id, task.isCompleted));
      s.(dash := Some(Show(reconciled, if task.isCompleted then MarkedCompleted else MarkedIncomplete, true)))
    case _ =>
      if Unauthorized(o) then Expire(s)
      else s.(dash := Some(Show(d.(tasks := SetCompleted(d.tasks, id, current)), ToggleFailureMessage(o), false)))
  }

  /**
    `handleToggleComplete` when nothing else happens while the request is out:
    the optimistic flip is overwritten by the server's status on success and by
    the clicked status `current` on a failure.
   */
  function Toggle(s: State, id: int, current: bool, o: Outcome<Task>): (r: State)
    requires s.dash.Some?
    ensures o.Ok? ==>
      Kept(s, r) && r.dash.value.tasks == SetCompleted(s.dash.value.tasks, id, o.payload.isCompleted)
    ensures !o.Ok? && !Unauthorized(o) ==>
      Kept(s, r) && r.dash.value.tasks == SetCompleted(s.dash.value.tasks, id, current)
    ensures !Unauthorized(o) ==>
      Kept(s, r) && SameForm(s.dash.value, r.dash.value) && SameDraft(s.dash.value, r.dash.value)
    ensures Unauthorized(o) ==> Expired(s, r)
    ensures Valid(s) ==> Valid(r)
  {
    var t := s.dash.value.tasks;
    SetCompletedLastWins(t, id, !current, if o.Ok? then o.payload.isCompleted else current);
    ToggleFinish(ToggleStart(s, id, current), id, current, o)
  }

  /**
    A failed toggle of a task whose shown status was `current` leaves the list
    exactly as it was before the click (unless the session expired, which
    discards the list).
   */
  lemma ToggleFailureRestores(s: State, id: int, current: bool, o: Outcome<Task>)
    requires s.dash.Some? && !o.Ok?
    requires forall t :: t in s.dash.value.tasks && t.id == id ==> t.isCompleted == current
    ensures !Unauthorized(o) ==> Toggle(s, id, current, o).dash.value.tasks == s.dash.value.tasks
  {
    SetCompletedRevert(s.dash.value.tasks, id, current, !current);
  }

  /** A successful toggle leaves the server's status, whatever was shown before. */
  lemma ToggleSuccessTakesServerStatus(s: State, id: int, current: bool, o: Outcome<Task>)
    requires s.dash.Some? && o.Ok?
    ensures Toggle(s, id, current, o).dash.value.tasks == SetCompleted(s.dash.value.tasks, id, o.payload.isCompleted)
  {
    SetCompletedLastWins(s.dash.value.tasks, id, !current, o.payload.isCompleted);
  }

  /**
    A task deleted while its toggle request is out stays deleted: the
    toggle's completion neither adds nor resurrects tasks.
   */
  lemma {:induction false} ToggleDoesNotResurrect(s: State, id: int, current: bool, o: Outcome<Task>)
    requires s.dash.Some?
    ensures var r := ToggleFinish(Delete(ToggleStart(s, id, current), id, Ok(())), id, current, o);
            r.dash.Some? ==> !HasId(r.dash.value.tasks, id)
  {
  }

  /** `startEditing`: copy the task's text into the draft. */
  function StartEditing(s: State, t: Task): (r: State)
    requires s.dash.Some?
    ensures Kept(s, r)
    ensures r.dash.value.editing == Some(t.id)
    ensures r.dash.value.editTitle == t.title && r.dash.value.editDescription == t.description
    ensures r.dash.value.tasks == s.dash.value.tasks && SameForm(s.dash.value, r.dash.value)
    ensures r.dash.value.notice == s.dash.value.notice && r.dash.value.success == s.dash.value.success
    ensures Valid(s) ==> Valid(r)
  {
    s.(dash := Some(s.dash.value.(editing := Some(t.id), editTitle := t.title, editDescription := t.description)))
  }

  /** `cancelEditing`: reset the draft, touch nothing else. */
  function CancelEditing(s: State): (r: State)
    requires s.dash.Some?
    ensures Kept(s, r)
    ensures r.dash.value.editing == None && r.dash.value.editTitle == "" && r.dash.value.editDescription == ""
    ensures r.dash.value.tasks == s.dash.value.tasks && SameForm(s.dash.value, r.dash.value)
    ensures r.dash.value.notice == s.dash.value.notice && r.dash.value.success == s.dash.value.success
    ensures Valid(s) ==> Valid(r)
  {
    s.(dash := Some(s.dash.value.(editing := None, editTitle := "", editDescription := "")))
  }

  /** Starting and then cancelling an edit leaves no trace of the draft. */
  lemma CancelUndoesStart(s: State, t: Task)
    requires s.dash.Some?
    ensures CancelEditing(StartEditing(s, t)) == CancelEditing(s)
  {
  }

  /**
    `saveEdit`: send the draft; on success take the server's title and
    description and close the draft, on failure keep both draft and list.
   */
  function SaveEdit(s: State, id: int, o: Outcome<Task>): (r: State)
    requires s.dash.Some?
    ensures !Unauthorized(o) ==> Kept(s, r) && |r.dash.value.tasks| == |s.dash.value.tasks|
    ensures !Unauthorized(o) ==> Kept(s, r) && SameForm(s.dash.value, r.dash.value)
    ensures o.Ok? ==> Kept(s, r) && forall i :: 0 <= i < |s.dash.value.tasks| ==>
              SameButText(r.dash.value.tasks[i], s.dash.value.tasks[i])
    ensures o.Ok? ==> Kept(s, r) && forall i :: 0 <= i < |s.dash.value.tasks| && s.dash.value.tasks[i].id == id ==>
              r.dash.value.tasks[i].title == o.payload.title && r.dash.value.tasks[i].description == o.payload.description
    ensures o.Ok? ==> Kept(s, r) && forall i :: 0 <= i < |s.dash.value.tasks| && s.dash.value.tasks[i].id != id ==>
              r.dash.value.tasks[i] == s.dash.value.tasks[i]
    ensures o.Ok? ==>
      Kept(s, r) && r.dash.value.editing == None && r.dash.value.editTitle == "" && r.dash.value.editDescription == ""
    ensures o.Ok? ==> Kept(s, r) && Reported(r.dash.value, TaskUpdated, true)
    ensures !o.Ok? && !Unauthorized(o) ==>
      Kept(s, r) && r.dash.value.tasks == s.dash.value.tasks && SameDraft(s.dash.value, r.dash.value)
    ensures !o.Ok? && !Unauthorized(o) ==> Kept(s, r) && Reported(r.dash.value, UpdateFailed, false)
    ensures Unauthorized(o) ==> Expired(s, r)
    ensures Valid(s) && !Unauthorized(o) ==> Kept(s, r) && r.dash.value.notice.live != {}
    ensures Valid(s) ==> Valid(r)
  {
    var d := s.dash.value;
    match o
    case Ok(task) =>
      var saved := d.(tasks := SetText(d.tasks, id, task.title, task.description),
                      editing := None, editTitle := "", editDescription := "");
      s.(dash := Some(Show(saved, TaskUpdated, true)))
    case _ => if Unauthorized(o) then Expire(s) else s.(dash := Some(Show(d, UpdateFailed, false)))
  }

  /**
    The message timeout `h` fires. A dashboard that unmounted cancelled its
    timeout in the effect's cleanup, so nothing happens then.
   */
  function TimeoutFires(s: State, h: nat): (r: State)
    ensures s.dash.None? ==> r == s
    ensures s.dash.Some? && h !in s.dash.value.notice.live ==> r == s
    ensures s.dash.Some? && h in s.dash.value.notice.live ==>
      r.dash.Some? && r.dash.value.notice.message == "" && r.dash.value.notice.handle == None
    ensures s.dash.Some? ==> r.dash.Some? && r == s.(dash := Some(s.dash.value.(notice := r.dash.value.notice)))
    ensures Valid(s) ==> Valid(r)
  {
    match s.dash
    case None => s
    case Some(d) => s.(dash := Some(d.(notice := Notices.Fire(d.notice, h))))
  }

  /** A created task, deleted again, leaves the list as it was. */
  lemma CreateThenDelete(s: State, t: Task)
    requires s.dash.Some? && !HasId(s.dash.value.tasks, t.id)
    ensures Delete(Create(s, Ok(t)), t.id, Ok(())).dash.value.tasks == s.dash.value.tasks
  {
    RemoveAppended(s.dash.value.tasks, t);
  }

  /**
    A user whose session is stored opens the dashboard, which loads two tasks;
    they mark the first one done, and the success message later clears: the
    first task is completed, the second is untouched, and no timeout is left
    pending.
   */
  lemma {:induction false} ToggleScenario(p: Session.Profile, a: Task, b: Task,
                                          parse: string -> Session.Parsed)
    requires a.id != b.id && !a.isCompleted && parse("u") == Session.Truthy(p)
    ensures var s0 := Navigate(Load(map[Session.UserKey := "u", Session.TokenKey := "t"], parse), DashboardPage);
            s0.dash == Some(Fresh) &&
            var s1 := Fetch(s0, Ok([a, b]));
            var s2 := Toggle(s1, a.id, false, Ok(a.(isCompleted := true)));
            var s3 := TimeoutFires(s2, s2.dash.value.notice.handle.value);
            && s2.dash.value.tasks == [a.(isCompleted := true), b]
            && s2.dash.value.notice.message == MarkedCompleted && s2.dash.value.success
            && s3.dash.value.tasks == s2.dash.value.tasks
            && s3.dash.value.notice.message == "" && s3.dash.value.notice.live == {}
  {
    var st := map[Session.UserKey := "u", Session.TokenKey := "t"];
    assert Session.Present(st, Session.UserKey) && Session.Present(st, Session.TokenKey);
    var s0 := Navigate(Load(st, parse), DashboardPage);
    assert s0.dash == Some(Fresh);
    var s1 := Fetch(s0, Ok([a, b]));
    var s2 := Toggle(s1, a.id, false, Ok(a.(isCompleted := true)));
    assert s2.dash.value.tasks[0] == a.(isCompleted := true) && s2.dash.value.tasks[1] == b;
    assert s2.dash.value.notice.live == {1};
  }
}

=== FILE: notices.dfy ===
/**
  The dashboard's notification slot and its auto-clear effect: whenever the
  message changes to a non-empty text, any pending timeout is cleared and a
  fresh 3-second timeout is started that empties the message when it fires.

  Time is not modelled; a timeout is a handle that is either pending (it will
  fire) or cancelled. `handle` is the ref the effect keeps, `live` the set of
  timeouts the browser will still run, and `next` the handle the next
  `setTimeout` returns.
 */
module Notices {
  import opened Options

  datatype Notice = Notice(message: string, handle: Option<nat>, live: set<nat>, next: nat)

  /**
    The slot as the dashboard mounts: no message, no timeout. Browsers hand
    out positive timeout ids, so a handle is truthy exactly when present.
   */
  const Idle := Notice("", None, {}, 1)

  /**
    Handles are positive and never reused; a pending timeout is the one the
    ref holds, and only while a message is shown.
   */
  ghost predicate Valid(n: Notice)
  {
    && 0 < n.next
    && (forall h :: h in n.live ==> 0 < h < n.next)
    && (n.handle.Some? ==> 0 < n.handle.value < n.next)
    && (n.live != {} ==> n.message != "" && n.handle.Some? && n.live == {n.handle.value})
  }

  /** `clearTimeout` on the ref's handle, which stays in the ref. */
  function CancelRef(n: Notice): Notice
  {
    if n.handle.Some? then n.(live := n.live - {n.handle.value}) else n
  }

  /** The effect body: for a non-empty message, replace the ref's timeout by a new one. */
  function Schedule(n: Notice): Notice
  {
    if n.message != "" then
      var c := CancelRef(n);
      c.(handle := Some(c.next), live := c.live + {c.next}, next := c.next + 1)
    else n
  }

  /**
    `setMessage(m)` followed by the effect. React re-runs the effect only when
    the text differs from the current one: first the previous run's cleanup
    cancels the ref's timeout, then the new run schedules one if `m` is non-empty.
   */
  function SetMessage(n: Notice, m: string): (r: Notice)
    ensures r.message == m
    ensures m == n.message ==> r == n
    ensures Valid(n) ==> Valid(r)
    ensures Valid(n) && m != n.message ==> r.live !! n.live
    ensures Valid(n) && m != n.message && m == "" ==> r.live == {}
    ensures m != n.message && m != "" ==> r.handle == Some(n.next) && n.next in r.live && r.next == n.next + 1
  {
    if m == n.message then n
    else Schedule(CancelRef(n).(message := m))
  }

  /** At most one timeout is ever pending. */
  lemma AtMostOnePending(n: Notice)
    requires Valid(n)
    ensures |n.live| <= 1
  {
    if n.live != {} {
      assert n.live == {n.handle.value};
    }
  }

  /**
    Timeout `h` fires: a cancelled one does nothing; a pending one empties the
    message and the ref.
   */
  function Fire(n: Notice, h: nat): (r: Notice)
    ensures h !in n.live ==> r == n
    ensures h in n.live ==> r.message == "" && r.handle == None && h !in r.live
    ensures Valid(n) ==> Valid(r)
    ensures Valid(n) && h in n.live ==> r.live == {}
  {
    if h !in n.live then n
    else SetMessage(n.(live := n.live - {h}, handle := None), "")
  }

  /**
    A superseded timeout cannot erase the newer message: firing it after the
    message changed has no effect.
   */
  lemma {:induction false} SupersededTimeoutIsHarmless(n: Notice, m: string, h: nat)
    requires Valid(n) && h in n.live && m != n.message
    ensures Fire(SetMessage(n, m), h) == SetMessage(n, m)
  {
    var r := SetMessage(n, m);
    assert h !in r.live;
  }

  /**
    The effect's cleanup as the dashboard unmounts: the ref's timeout is
    cancelled and, the component being gone, no new one is scheduled.
   */
  function Unmount(n: Notice): (r: Notice)
    ensures r.message == n.message && r.handle == n.handle && r.next == n.next
    ensures r.live <= n.live
    ensures Valid(n) ==> r.live == {}
  {
    CancelRef(n)
  }
}

=== FILE: options.dfy ===
/** An optional value: the `null` of the JavaScript client and the missing row of the server. */
module Options {

  datatype Option<+T> = None | Some(value: T)

}

=== FILE: outcomes.dfy ===
/**
  How the client sees a request's result, in place of axios' promise: a
  response payload, an HTTP error response, a request that got no response,
  or an error raised before the request was sent. Also the notification texts
  the dashboard shows, and the error classifications it applies.
 */
module Outcomes {

  /**
    The body of an error response: absent (falsy), or present with its values
    joined by ", " (the empty string when the body has no values).
   */
  datatype ErrorData = NoData | Data(joined: string)

  datatype Outcome<+T> =
    | Ok(payload: T)
    | HttpErr(status: int, data: ErrorData)
    | NoResponse
    | Other

  /** The server rejected the credential. */
  predicate Unauthorized<T>(o: Outcome<T>)
  {
    o.HttpErr? && o.status == 401
  }

  const SessionExpired := "Session expired. Please log in again."
  const FetchFailed := "Failed to fetch tasks. Please try again."
  const TaskCreated := "Task created successfully!"
  const CreateFailed := "Failed to create task."
  const ServerError := "Server error. Please try again later."
  const NetworkError := "Network error. Please check your connection."
  const Unexpected := "An unexpected error occurred. Please try again."
  const TaskDeleted := "Task deleted successfully!"
  const DeleteFailed := "Failed to delete task. Please try again."
  const MarkedCompleted := "Task marked as completed!"
  const MarkedIncomplete := "Task marked as incomplete!"
  const UpdateFailed := "Failed to update task. Please try again."
  const UpdateFailedShort := "Failed to update task."
  const PermissionDenied := "Permission denied. You cannot update this task."
  const TaskNotFound := "Task not found."
  const TaskUpdated := "Task updated successfully!"

  /** The server's joined error values, or `fallback` when they join to nothing. */
  function BodyText(joined: string, fallback: string): (m: string)
    requires fallback != ""
    ensures m != ""
    ensures joined != "" ==> m == joined
    ensures joined == "" ==> m == fallback
  {
    if joined != "" then joined else fallback
  }

  /** The message for a failed create that did not expire the session. */
  function CreateFailureMessage<T>(o: Outcome<T>): (m: string)
    requires !o.Ok? && !Unauthorized(o)
    ensures m != ""
    ensures o.HttpErr? && o.data.Data? && o.data.joined != "" ==> m == o.data.joined
    ensures o.HttpErr? && o.data.Data? && o.data.joined == "" ==> m == CreateFailed
    ensures o.HttpErr? && o.data.NoData? ==> m == ServerError
    ensures o.NoResponse? ==> m == NetworkError
    ensures o.Other? ==> m == Unexpected
  {
    match o
    case HttpErr(_, data) =>
      if data.Data? then BodyText(data.joined, CreateFailed) else ServerError
    case NoResponse => NetworkError
    case Other => Unexpected
  }

  /** The message for a failed completion toggle. */
  function ToggleFailureMessage<T>(o: Outcome<T>): (m: string)
    requires !o.Ok?
    ensures m != ""
    ensures Unauthorized(o) ==> m == SessionExpired
    ensures o.HttpErr? && o.status == 403 ==> m == PermissionDenied
    ensures o.HttpErr? && o.status == 404 ==> m == TaskNotFound
    ensures o.HttpErr? && o.status != 401 && o.status != 403 && o.status != 404 ==>
      m == (if o.data.NoData? then UpdateFailed else BodyText(o.data.joined, UpdateFailedShort))
    ensures o.NoResponse? ==> m == NetworkError
    ensures o.Other? ==> m == UpdateFailed
  {
    match o
    case HttpErr(status, data) =>
      if status == 401 then SessionExpired
      else if status == 403 then PermissionDenied
      else if status == 404 then TaskNotFound
      else if data.Data? then BodyText(data.joined, UpdateFailedShort)
      else UpdateFailed
    case NoResponse => NetworkError
    case Other => UpdateFailed
  }
}

=== FILE: roles.dfy ===
/**
  Accounts and their roles: the `User` model's role field and its `save`
  normalisation (users/models.py), and the user admin's role column and
  `save_model` hook (users/admin.py).
 */
module Roles {
  import opened Options

  /** The two declared role choices. */
  datatype Role = UserRole | AdminRole

  /** The declared choices as (stored value, display name) pairs, in declaration order. */
  const Choices: seq<(string, string)> := [("user", "User"), ("admin", "Admin")]

  /** The value stored in the database for a role. */
  function Value(r: Role): string
  {
    match r
    case UserRole => "user"
    case AdminRole => "admin"
  }

  /** The human-readable name Django shows for a stored role. */
  function DisplayName(r: Role): string
  {
    match r
    case UserRole => "User"
    case AdminRole => "Admin"
  }

  /** The role a stored value denotes, if it is one of the declared choices. */
  function FromValue(v: string): (r: Option<Role>)
    ensures r.Some? <==> exists k :: 0 <= k < |Choices| && Choices[k].0 == v
    ensures r.Some? ==> Value(r.value) == v
  {
    if v == "user" then
      assert Choices[0].0 == v;
      Some(UserRole)
    else if v == "admin" then
      assert Choices[1].0 == v;
      Some(AdminRole)
    else
      assert forall k :: 0 <= k < |Choices| ==> Choices[k].0 != v;
      None
  }

  /** Every role is one of the declared choices, with the declared display name. */
  lemma ChoicesCoverRoles(r: Role)
    ensures (Value(r), DisplayName(r)) in Choices
    ensures FromValue(Value(r)) == Some(r)
  {
    if r == UserRole {
      assert Choices[0] == (Value(r), DisplayName(r));
    } else {
      assert Choices[1] == (Value(r), DisplayName(r));
    }
  }

  /** The role a new account gets when none is given. */
  const DefaultRole: Role := UserRole

  /** The fields of an account that the role rules read. */
  datatype Account = Account(id: int, role: Role, isSuperuser: bool)

  /** An account created without an explicit role. */
  function NewAccount(id: int, isSuperuser: bool): (u: Account)
    ensures u.id == id && u.isSuperuser == isSuperuser
    ensures Value(u.role) == "user"
  {
    Account(id, DefaultRole, isSuperuser)
  }

  /** A superuser always carries the admin role. */
  ghost predicate Normalised(u: Account)
  {
    u.isSuperuser ==> u.role == AdminRole
  }

  /** `User.save`: a superuser is forced to the admin role before the row is written. */
  function Save(u: Account): (r: Account)
    ensures Normalised(r)
    ensures r.id == u.id && r.isSuperuser == u.isSuperuser
    ensures !u.isSuperuser ==> r.role == u.role
    ensures Normalised(u) ==> r == u
  {
    if u.isSuperuser then u.(role := AdminRole) else u
  }

  /** Saving twice stores the same role as saving once. */
  lemma SaveIdempotent(u: Account)
    ensures Save(Save(u)) == Save(u)
  {
  }

  /** The admin's "Role" column: superusers read as Admin whatever is stored. */
  function RoleColumn(u: Account): (r: string)
    ensures r == "Admin" <==> u.isSuperuser || u.role == AdminRole
    ensures !u.isSuperuser ==> r == DisplayName(u.role)
    ensures r == "User" || r == "Admin"
  {
    if u.isSuperuser then "Admin" else DisplayName(u.role)
  }

  /** The column shows the display name of the role the account will have once saved. */
  lemma RoleColumnMatchesSavedRole(u: Account)
    ensures RoleColumn(u) == DisplayName(Save(u).role)
  {
  }

  /** `CustomUserAdmin.save_model`: force the admin role on a superuser, then save the model. */
  function SaveModel(u: Account): (r: Account)
    ensures u.isSuperuser ==> r.role == AdminRole
    ensures !u.isSuperuser ==> r == u
    ensures r == Save(u)
  {
    var forced := if u.isSuperuser then u.(role := AdminRole) else u;
    Save(forced)
  }
}

=== FILE: sequences.dfy ===
/**
  Order-preserving filtering of sequences, shared by the client's task list
  (removing a deleted task) and the admin's task queryset.
 */
module Sequences {

  /** `xs` can be obtained from `ys` by deleting elements, without reordering the rest. */
  ghost predicate Subsequence<T>(xs: seq<T>, ys: seq<T>)
    decreases |ys|
  {
    if xs == [] then true
    else if ys == [] then false
    else (xs[0] == ys[0] && Subsequence(xs[1..], ys[1..])) || Subsequence(xs, ys[1..])
  }

  /** Every sequence is a subsequence of itself. */
  lemma {:induction false} SubsequenceReflexive<T>(xs: seq<T>)
    ensures Subsequence(xs, xs)
    decreases |xs|
  {
    if xs != [] {
      SubsequenceReflexive(xs[1..]);
    }
  }

  /** The elements of `xs` satisfying `p`, in their original order. */
  function Keep<T(!new)>(xs: seq<T>, p: T -> bool): (r: seq<T>)
    ensures forall x :: x in r <==> x in xs && p(x)
    ensures forall x :: multiset(r)[x] == if p(x) then multiset(xs)[x] else 0
    ensures Subsequence(r, xs)
    decreases |xs|
  {
    if xs == [] then []
    else
      var rest := Keep(xs[1..], p);
      assert xs == [xs[0]] + xs[1..];
      if p(xs[0]) then
        assert ([xs[0]] + rest)[1..] == rest;
        [xs[0]] + rest
      else rest
  }

  /** Filtering distributes over concatenation. */
  lemma {:induction false} KeepAppend<T(!new)>(xs: seq<T>, ys: seq<T>, p: T -> bool)
    ensures Keep(xs + ys, p) == Keep(xs, p) + Keep(ys, p)
    decreases |xs|
  {
    if xs == [] {
      assert xs + ys == ys;
    } else {
      assert (xs + ys)[1..] == xs[1..] + ys;
      KeepAppend(xs[1..], ys, p);
    }
  }

  /** Filtering by a predicate that every element meets changes nothing. */
  lemma {:induction false} KeepAll<T(!new)>(xs: seq<T>, p: T -> bool)
    requires forall x :: x in xs ==> p(x)
    ensures Keep(xs, p) == xs
    decreases |xs|
  {
    if xs != [] {
      assert forall x :: x in xs[1..] ==> x in xs;
      KeepAll(xs[1..], p);
      assert xs == [xs[0]] + xs[1..];
    }
  }
}

=== FILE: session.dfy ===
/**
  The client's session: the signed-in profile held in React state, and the
  two `localStorage` entries that persist it across reloads.
 */
module Session {
  import opened Options

  /** The profile the server returns at login or registration. */
  datatype Profile = Profile(id: int, username: string, email: string, role: string)

  /** The browser's `localStorage`. */
  type Storage = map<string, string>

  const UserKey := "user"
  const TokenKey := "authToken"

  /** The `user` state (null when signed out) and the persistent storage. */
  datatype Session = Session(user: Option<Profile>, storage: Storage)

  /** `localStorage.getItem(key)` is truthy: the key is set to a non-empty string. */
  predicate Present(st: Storage, key: string)
  {
    key in st && st[key] != ""
  }

  /** Either both session keys are stored or neither is. */
  ghost predicate Paired(st: Storage)
  {
    UserKey in st <==> TokenKey in st
  }

  /** A signed-in user is always backed by both stored keys. */
  ghost predicate Consistent(s: Session)
  {
    s.user.Some? ==> UserKey in s.storage && TokenKey in s.storage
  }

  /**
    What `JSON.parse` makes of the stored text: it throws, or it yields a falsy
    value (`null`, `false`, `0`), or a truthy one, which the client takes as
    the profile.
   */
  datatype Parsed = Throws | Falsy | Truthy(profile: Profile)

  /**
    The load effect: with both keys present, parse the stored profile and set
    the user to the result; if parsing throws, drop both keys. A falsy result
    sets the user to that falsy value, so nobody is signed in, and both keys
    stay. `parse` is `JSON.parse`.
   */
  function Restore(st: Storage, parse: string -> Parsed): (r: Session)
    ensures r.user.Some? <==> Present(st, UserKey) && Present(st, TokenKey) && parse(st[UserKey]).Truthy?
    ensures r.user.Some? ==> r.user == Some(parse(st[UserKey]).profile) && r.storage == st
    ensures Present(st, UserKey) && Present(st, TokenKey) && parse(st[UserKey]).Throws? ==>
      r.storage == st - {UserKey, TokenKey}
    ensures Present(st, UserKey) && Present(st, TokenKey) && parse(st[UserKey]).Falsy? ==>
      r.storage == st
    ensures !(Present(st, UserKey) && Present(st, TokenKey)) ==> r.storage == st
    ensures Consistent(r)
    ensures Paired(st) ==> Paired(r.storage)
  {
    if Present(st, UserKey) && Present(st, TokenKey) then
      match parse(st[UserKey])
      case Truthy(p) => Session(Some(p), st)
      case Falsy => Session(None, st)
      case Throws => Session(None, st - {UserKey, TokenKey})
    else Session(None, st)
  }

  /** Sign out: both keys removed, the user state nulled. */
  function Clear(s: Session): (r: Session)
    ensures r.user.None?
    ensures UserKey !in r.storage && TokenKey !in r.storage
    ensures forall k :: k != UserKey && k != TokenKey ==> (k in r.storage <==> k in s.storage)
    ensures forall k :: k in r.storage ==> r.storage[k] == s.storage[k]
    ensures Consistent(r) && Paired(r.storage)
  {
    Session(None, s.storage - {UserKey, TokenKey})
  }

  /** Signing out twice is signing out once. */
  lemma ClearIdempotent(s: Session)
    ensures Clear(Clear(s)) == Clear(s)
  {
  }

  /**
    A successful login or registration: the profile, serialised by `encode`
    (`JSON.stringify`), and the token are stored, and the user signs in.
   */
  function Establish(s: Session, p: Profile, token: string, encode: Profile -> string): (r: Session)
    ensures r.user == Some(p)
    ensures UserKey in r.storage && r.storage[UserKey] == encode(p)
    ensures TokenKey in r.storage && r.storage[TokenKey] == token
    ensures forall k :: k != UserKey && k != TokenKey ==> (k in r.storage <==> k in s.storage)
    ensures forall k :: k in r.storage && k != UserKey && k != TokenKey ==> r.storage[k] == s.storage[k]
    ensures Consistent(r) && Paired(r.storage)
  {
    Session(Some(p), s.storage[UserKey := encode(p)][TokenKey := token])
  }

  /**
    Reloading after a login restores the same profile and keeps the storage,
    provided the stored text parses back to the profile and the token is not
    empty.
   */
  lemma {:induction false} RestoreAfterEstablish(s: Session, p: Profile, token: string,
                                                 encode: Profile -> string, parse: string -> Parsed)
    requires encode(p) != "" && token != "" && parse(encode(p)) == Truthy(p)
    ensures Restore(Establish(s, p, token, encode).storage, parse) == Establish(s, p, token, encode)
  {
    var e := Establish(s, p, token, encode);
    assert Present(e.storage, UserKey) && Present(e.storage, TokenKey);
  }

  /** Reloading after a logout stays signed out and changes nothing. */
  lemma RestoreAfterClear(s: Session, parse: string -> Parsed)
    ensures Restore(Clear(s).storage, parse) == Clear(s)
  {
  }
}

=== FILE: task_admin.dfy ===
/**
  The task admin's queryset (tasks/admin.py): which task rows the Django admin
  shows to a staff account.
 */
module TaskAdmin {
  import opened Sequences
  import opened Roles
  import TaskApi

  /** One row of the task queryset: primary key and task. */
  datatype Row = Row(pk: int, task: TaskApi.Task)

  /** The admin's test: a superuser or a stored admin role sees every task. */
  predicate SeesAll(u: Account)
  {
    u.isSuperuser || u.role == AdminRole
  }

  /** `TaskAdmin.get_queryset`: the whole queryset, or only the requester's own rows. */
  function Queryset(qs: seq<Row>, u: Account): (r: seq<Row>)
    ensures SeesAll(u) ==> r == qs
    ensures !SeesAll(u) ==> forall row :: row in r <==> row in qs && row.task.owner == u.id
    ensures !SeesAll(u) ==> forall row: Row :: row.task.owner == u.id ==> multiset(r)[row] == multiset(qs)[row]
    ensures Subsequence(r, qs)
  {
    if SeesAll(u) then
      SubsequenceReflexive(qs);
      qs
    else Keep(qs, (row: Row) => row.task.owner == u.id)
  }

  /**
    The admin admits a superuser whose stored role is not admin, which the API
    views would treat as an ordinary user.
   */
  lemma ChecksDifferBeforeSave()
    ensures var u := Account(7, UserRole, true); SeesAll(u) && !TaskApi.IsAdmin(u)
  {
  }

  /** Once `User.save` has run, the admin's test and the views' test agree. */
  lemma ChecksAgreeAfterSave(u: Account)
    ensures SeesAll(Save(u)) == TaskApi.IsAdmin(Save(u))
    ensures SeesAll(Save(u)) == SeesAll(u)
  {
  }

  /** `qs` lists exactly the rows of the store, once each key. */
  ghost predicate Enumerates(qs: seq<Row>, st: TaskApi.Store)
  {
    && (forall row :: row in qs ==> row.pk in st.tasks && st.tasks[row.pk] == row.task)
    && (forall pk :: pk in st.tasks ==> Row(pk, st.tasks[pk]) in qs)
  }

  /**
    For a saved account, the admin shows the same tasks the API lists for it.
   */
  lemma {:induction false} QuerysetMatchesList(qs: seq<Row>, st: TaskApi.Store, u: Account)
    requires Enumerates(qs, st)
    ensures forall row :: row in Queryset(qs, Save(u)) <==> row in qs && row.pk in TaskApi.ListTasks(st, Save(u)).tasks
    ensures forall pk :: pk in st.tasks ==>
      (pk in TaskApi.ListTasks(st, Save(u)).tasks <==> Row(pk, st.tasks[pk]) in Queryset(qs, Save(u)))
  {
    ChecksAgreeAfterSave(u);
  }
}

=== FILE: task_api.dfy ===
/**
  The task endpoints of the REST API (tasks/views.py): `task_list` (GET, POST)
  and `task_detail` (GET, PUT, PATCH, DELETE). The requester is already
  authenticated; the serializer's verdict on the request data is an input.
 */
module TaskApi {
  import opened Options
  import opened Roles

  /** A stored task; `owner` is the `created_by` account id. */
  datatype Task = Task(title: string, description: string, isCompleted: bool, owner: int)

  /** The task table; `nextId` is the primary key the database hands out next. */
  datatype Store = Store(tasks: map<int, Task>, nextId: int)

  /** Every stored key was handed out before. */
  ghost predicate Valid(st: Store)
  {
    forall pk :: pk in st.tasks ==> pk < st.nextId
  }

  /** Validated data of a create request (with model defaults filled in). */
  datatype Fields = Fields(title: string, description: string, isCompleted: bool)

  /**
    The writable fields an update request supplies. `created_by`, `created_at`
    and `updated_at` are read-only in the serializer, so a request cannot carry them.
   */
  datatype Changes = Changes(title: Option<string>, description: Option<string>, isCompleted: Option<bool>)

  /** The methods `task_detail` accepts. */
  datatype Method = Get | Put(data: Changes) | Patch(data: Changes) | Delete

  datatype Response =
    | Listed(tasks: map<int, Task>)
    | Found(pk: int, task: Task)
    | Created(pk: int, task: Task)
    | NoContent
    | BadRequest
    | Forbidden
    | NotFound

  /** The HTTP status code of a response. */
  function Status(r: Response): int
  {
    match r
    case Listed(_) => 200
    case Found(_, _) => 200
    case Created(_, _) => 201
    case NoContent => 204
    case BadRequest => 400
    case Forbidden => 403
    case NotFound => 404
  }

  /** The store after a request, and the response sent. */
  datatype Exchange = Exchange(store: Store, response: Response)

  /** The views' admin test: only the stored role counts. */
  predicate IsAdmin(u: Account)
  {
    u.role == AdminRole
  }

  /** GET on the task list: everything for an admin, otherwise the requester's own tasks. */
  function ListTasks(st: Store, u: Account): (r: Response)
    ensures r.Listed? && Status(r) == 200
    ensures forall pk :: pk in r.tasks <==> pk in st.tasks && (IsAdmin(u) || st.tasks[pk].owner == u.id)
    ensures forall pk :: pk in r.tasks ==> r.tasks[pk] == st.tasks[pk]
  {
    if IsAdmin(u) then Listed(st.tasks)
    else Listed(map pk | pk in st.tasks && st.tasks[pk].owner == u.id :: st.tasks[pk])
  }

  /** POST on the task list: store a valid task owned by the requester. */
  function CreateTask(st: Store, u: Account, data: Fields, valid: bool): (x: Exchange)
    ensures !valid ==> x.store == st && Status(x.response) == 400
    ensures valid ==> Status(x.response) == 201 && x.response.Created?
    ensures valid ==> x.response.pk in x.store.tasks && x.store.tasks[x.response.pk] == x.response.task
    ensures valid ==> x.response.task == Task(data.title, data.description, data.isCompleted, u.id)
    ensures valid && Valid(st) ==> x.response.pk !in st.tasks
    ensures valid ==> x.store.tasks.Keys == st.tasks.Keys + {x.response.pk}
    ensures valid && Valid(st) ==> forall pk :: pk in st.tasks ==> x.store.tasks[pk] == st.tasks[pk]
    ensures Valid(st) ==> Valid(x.store)
  {
    if valid then
      var pk := st.nextId;
      var task := Task(data.title, data.description, data.isCompleted, u.id);
      Exchange(Store(st.tasks[pk := task], pk + 1), Created(pk, task))
    else
      Exchange(st, BadRequest)
  }

  /** A task with the supplied fields overwritten and every other field kept. */
  function Apply(t: Task, c: Changes): (r: Task)
    ensures r.owner == t.owner
    ensures r.title == (if c.title.Some? then c.title.value else t.title)
    ensures r.description == (if c.description.Some? then c.description.value else t.description)
    ensures r.isCompleted == (if c.isCompleted.Some? then c.isCompleted.value else t.isCompleted)
  {
    Task(
      if c.title.Some? then c.title.value else t.title,
      if c.description.Some? then c.description.value else t.description,
      if c.isCompleted.Some? then c.isCompleted.value else t.isCompleted,
      t.owner)
  }

  /** Applying the same update twice is applying it once. */
  lemma ApplyIdempotent(t: Task, c: Changes)
    ensures Apply(Apply(t, c), c) == Apply(t, c)
  {
  }

  /** An update that supplies no field leaves the task as it is. */
  lemma ApplyNothing(t: Task)
    ensures Apply(t, Changes(None, None, None)) == t
  {
  }

  /** Save valid update data onto the addressed task. */
  function Update(st: Store, pk: int, data: Changes, valid: bool): Exchange
    requires pk in st.tasks
  {
    if valid then
      var task := Apply(st.tasks[pk], data);
      Exchange(st.(tasks := st.tasks[pk := task]), Found(pk, task))
    else
      Exchange(st, BadRequest)
  }

  /** `task_detail`: look the task up, check access, then dispatch on the method. */
  function TaskDetail(st: Store, u: Account, pk: int, m: Method, valid: bool): (x: Exchange)
    ensures pk !in st.tasks ==> x == Exchange(st, NotFound)
    ensures pk in st.tasks && !IsAdmin(u) && st.tasks[pk].owner != u.id ==> x == Exchange(st, Forbidden)
    ensures x.response.Forbidden? <==> pk in st.tasks && !IsAdmin(u) && st.tasks[pk].owner != u.id
    ensures m.Get? ==> x.store == st
    ensures m.Get? && x.response.Found? ==> x.response.pk == pk && x.response.task == st.tasks[pk]
    ensures m.Get? && pk in st.tasks && (IsAdmin(u) || st.tasks[pk].owner == u.id) ==>
      x == Exchange(st, Found(pk, st.tasks[pk]))
    ensures (m.Put? || m.Patch?) && x.response.Found? ==>
      && pk in st.tasks
      && x.store.tasks.Keys == st.tasks.Keys
      && x.response.pk == pk
      && x.store.tasks[pk] == x.response.task == Apply(st.tasks[pk], m.data)
      && x.response.task.owner == st.tasks[pk].owner
      && (forall k :: k in st.tasks && k != pk ==> x.store.tasks[k] == st.tasks[k])
    ensures (m.Put? || m.Patch?) && pk in st.tasks && (IsAdmin(u) || st.tasks[pk].owner == u.id) ==>
      (x.response.Found? <==> valid) && (!valid ==> x == Exchange(st, BadRequest))
    ensures m.Delete? && pk in st.tasks && (IsAdmin(u) || st.tasks[pk].owner == u.id) ==>
      x.response == NoContent && Status(x.response) == 204 && x.store.tasks == st.tasks - {pk}
    ensures x.store.nextId == st.nextId
    ensures Valid(st) ==> Valid(x.store)
  {
    if pk !in st.tasks then Exchange(st, NotFound)
    else
      var task := st.tasks[pk];
      if !IsAdmin(u) && task.owner != u.id then Exchange(st, Forbidden)
      else
        match m
        case Get => Exchange(st, Found(pk, task))
        case Put(data) => Update(st, pk, data, valid)
        case Patch(data) => Update(st, pk, data, valid)
        case Delete => Exchange(st.(tasks := st.tasks - {pk}), NoContent)
  }

  /**
    The list and the detail view agree on visibility: a task is listed for the
    requester exactly when fetching it on its own succeeds.
   */
  lemma ListAgreesWithDetail(st: Store, u: Account, pk: int, valid: bool)
    ensures pk in ListTasks(st, u).tasks <==> TaskDetail(st, u, pk, Get, valid).response.Found?
  {
  }

  /**
    PUT and PATCH are idempotent: sending the same update again, with the same
    verdict of the serializer, gives the same response and changes nothing more.
   */
  lemma UpdateIdempotent(st: Store, u: Account, pk: int, m: Method, valid: bool)
    requires m.Put? || m.Patch?
    ensures var x := TaskDetail(st, u, pk, m, valid);
            TaskDetail(x.store, u, pk, m, valid) == x
  {
    if pk in st.tasks && (IsAdmin(u) || st.tasks[pk].owner == u.id) && valid {
      ApplyIdempotent(st.tasks[pk], m.data);
    }
  }
}

=== FILE: task_list.dfy ===
/**
  The dashboard's task list as the client holds it, in server order, and the
  per-id updates its handlers apply to it.
 */
module TaskList {
  import opened Sequences

  /** A task record as the API serialises it (`created_at` kept opaque). */
  datatype Task = Task(id: int, title: string, description: string, isCompleted: bool, createdAt: string)

  /** `a` and `b` agree on every field except, possibly, completion. */
  predicate SameButCompletion(a: Task, b: Task)
  {
    a.id == b.id && a.title == b.title && a.description == b.description && a.createdAt == b.createdAt
  }

  /** `a` and `b` agree on every field except, possibly, title and description. */
  predicate SameButText(a: Task, b: Task)
  {
    a.id == b.id && a.isCompleted == b.isCompleted && a.createdAt == b.createdAt
  }

  /** Some task in `ts` has the given id. */
  predicate HasId(ts: seq<Task>, id: int)
  {
    exists t :: t in ts && t.id == id
  }

  /** `tasks.filter(task => task.id !== id)`. */
  function RemoveId(ts: seq<Task>, id: int): (r: seq<Task>)
    ensures forall t :: t in r <==> t in ts && t.id != id
    ensures forall t: Task :: t.id != id ==> multiset(r)[t] == multiset(ts)[t]
    ensures Subsequence(r, ts)
    ensures !HasId(r, id)
  {
    Keep(ts, (t: Task) => t.id != id)
  }

  /** Removing an id no task has leaves the list as it was. */
  lemma RemoveAbsentId(ts: seq<Task>, id: int)
    requires !HasId(ts, id)
    ensures RemoveId(ts, id) == ts
  {
    KeepAll(ts, (t: Task) => t.id != id);
  }

  /** Appending a task with a new id and then removing that id gives back the list. */
  lemma {:induction false} RemoveAppended(ts: seq<Task>, t: Task)
    requires !HasId(ts, t.id)
    ensures RemoveId(ts + [t], t.id) == ts
  {
    var p := (x: Task) => x.id != t.id;
    KeepAppend(ts, [t], p);
    RemoveAbsentId(ts, t.id);
    assert Keep([t], p) == [];
  }

  /** `tasks.map(task => task.id === id ? { ...task, is_completed: done } : task)`. */
  function SetCompleted(ts: seq<Task>, id: int, done: bool): (r: seq<Task>)
    ensures |r| == |ts|
    ensures forall i :: 0 <= i < |ts| ==>
      SameButCompletion(r[i], ts[i]) && r[i].isCompleted == (if ts[i].id == id then done else ts[i].isCompleted)
    decreases |ts|
  {
    if ts == [] then []
    else
      var t := ts[0];
      [if t.id == id then t.(isCompleted := done) else t] + SetCompleted(ts[1..], id, done)
  }

  /**
    Setting back the status every matching task had before undoes a status
    change: the toggle's revert restores the list exactly.
   */
  lemma SetCompletedRevert(ts: seq<Task>, id: int, before: bool, after: bool)
    requires forall t :: t in ts && t.id == id ==> t.isCompleted == before
    ensures SetCompleted(SetCompleted(ts, id, after), id, before) == ts
  {
    var r := SetCompleted(SetCompleted(ts, id, after), id, before);
    forall i | 0 <= i < |ts|
      ensures r[i] == ts[i]
    {
      assert ts[i] in ts;
    }
  }

  /** Of two status changes on one id, the later one wins. */
  lemma SetCompletedLastWins(ts: seq<Task>, id: int, a: bool, b: bool)
    ensures SetCompleted(SetCompleted(ts, id, a), id, b) == SetCompleted(ts, id, b)
  {
    var l := SetCompleted(SetCompleted(ts, id, a), id, b);
    var r := SetCompleted(ts, id, b);
    forall i | 0 <= i < |ts|
      ensures l[i] == r[i]
    {
    }
  }

  /** Replace title and description of the tasks with the given id. */
  function SetText(ts: seq<Task>, id: int, title: string, description: string): (r: seq<Task>)
    ensures |r| == |ts|
    ensures forall i :: 0 <= i < |ts| ==> SameButText(r[i], ts[i])
    ensures forall i :: 0 <= i < |ts| && ts[i].id == id ==> r[i].title == title && r[i].description == description
    ensures forall i :: 0 <= i < |ts| && ts[i].id != id ==> r[i] == ts[i]
    decreases |ts|
  {
    if ts == [] then []
    else
      var t := ts[0];
      [if t.id == id then t.(title := title, description := description) else t]
        + SetText(ts[1..], id, title, description)
  }
}
